=== FILE: README.md ===
# URL shortener core, modelled in Dafny

The model covers a URL shortener in two shapes.

- **Monolith.** One binary whose routed handlers save a url under an alias and redirect an alias to its url. The store is sqlite or mongo. An empty alias becomes a random six-character string. The tree also holds a delete handler, but the binary does not route it and its `Storage` interface has no `DeleteUrl` (`cmd/url-shortener/main.go:28-36`, `65-66`); it is modelled on its own.
- **Services.**
  - A *main* service puts a redis cache in front of the persistent store. It asks an *alias generator* for aliases and sends click events to an analytics sink.
  - The alias generator keeps a postgres counter and encodes each new value in base 62.
  - A one-shot *key-gen* command does the same with its own copy of the codec.

Each handler is a pure transition. It takes the store state and whatever the outside world answers: the decoded body, the validator's verdict, the generator's reply, injected database faults, cache and tracker availability. It gives back the response, the new state and the ordered trace of outside calls. The stores are sequences of `{alias, url}` records in insertion order. The cache is a map. The counter is a map from row id to value.

| file | module | models |
|---|---|---|
| `shared.dfy` | `Shared` | results, store errors, records, faults, responses, call traces |
| `base62.dfy` | `Base62` | the alias generator's base-62 encoder and a reference decoder |
| `keygen.dfy` | `KeyGen` | the key-gen command's duplicate encoder and its run |
| `counter.dfy` | `Counter` | the postgres counter row |
| `aliasgen.dfy` | `AliasGen` | the alias generator's request handler |
| `docs.dfy` | `Docs` | helper functions over record sequences (count, first match, removal) |
| `sqlite.dfy` | `Sqlite` | the sqlite store, with a unique alias column |
| `mongo.dfy` | `Mongo` | the mongo store, with no uniqueness |
| `redis.dfy` | `Redis` | the redis cache |
| `backend.dfy` | `Backend` | the store behind the handlers, either sqlite or mongo |
| `service.dfy` | `Service` | the main service's save and redirect handlers |
| `monolith.dfy` | `Monolith` | the monolith's save, redirect and delete handlers |

## Model

| member | source | states |
|---|---|---|
| Base62.AlphabetLiteral | services/alias-gen/internal/generator/generator.go:5 | the digit alphabet has 62 symbols and is exactly the literal `0-9A-Za-z`, in that order |
| Base62.SymbolDigit | services/alias-gen/internal/generator/generator.go:5 | each digit value names a distinct alphabet symbol, and that symbol's value maps back to the digit |
| Base62.Encode | services/alias-gen/internal/generator/generator.go:11-23 | only alphabet symbols appear in the output; zero gives `"0"`; a negative input gives the empty string because the loop never runs; a positive input never gets a leading `0` |
| Base62.GenerateAlias | services/alias-gen/internal/generator/generator.go:7-9 | a non-negative counter value gives a non-empty alias that decodes back to that value; a negative one gives the empty alias |
| Base62.DigitsDecode | services/alias-gen/internal/generator/generator.go:15-22 | the digits the loop prepends, read most significant first, give back the input |
| Base62.EncodeDecode | services/alias-gen/internal/generator/generator.go:11-23 | decoding the encoding of every `n >= 0` gives `n` |
| Base62.EncodeInjective | services/alias-gen/internal/generator/generator.go:11-23 | two inputs with the same encoding are equal, or both negative |
| Base62.DecodeDigits | services/alias-gen/internal/generator/generator.go:15-22 | every symbol string without a leading `0` is the loop's output for its decoded value |
| Base62.CanonicalRoundTrip | services/alias-gen/internal/generator/generator.go:11-23 | every canonical string (`"0"`, or symbols without a leading `0`) is the encoding of exactly its decoded value |
| Base62.EncodeIsCanonical | services/alias-gen/internal/generator/generator.go:11-23 | every encoding of `n >= 0` is canonical, which with the previous row makes the codec a bijection between naturals and canonical strings |
| Base62.EncodeLength | services/alias-gen/internal/generator/generator.go:17-21 | the encoding of a positive `n` has `k` symbols exactly when `62^(k-1) <= n < 62^k` |
| Base62.Int64Length | services/alias-gen/internal/generator/generator.go:11-23 | every non-negative `int64` counter value encodes to between 1 and 11 symbols |
| Base62.EncodeLoop | services/alias-gen/internal/generator/generator.go:11-23 | the imperative loop (prepend `alphabet[n % 62]`, divide by 62) returns the encoding, and that string decodes to the input |
| Base62.Examples | services/alias-gen/internal/generator/generator.go:11-23 | 0, 61, 62 and -1 encode to `"0"`, `"z"`, `"10"` and `""` |
| KeyGen.Prepend | services/key-gen/cmd/key-gen/main.go:26-33 | the key-gen loop, written as tail recursion over the collected symbols, puts the reference digits in front of them |
| KeyGen.Base62Encode | services/key-gen/cmd/key-gen/main.go:22-34 | the duplicate encoder returns the alias generator's encoding for every input, and so decodes back for `n >= 0` |
| KeyGen.GenerateOnce | services/key-gen/cmd/key-gen/main.go:36-63 | a run succeeds exactly when the database answers and row 1 exists; it prints an alias that decodes to the incremented value |
| KeyGen.AgreesWithAliasGen | services/key-gen/cmd/key-gen/main.go:36-63 | on the same counter, the command succeeds exactly when the alias generator's handler does, and prints the same alias |
| Counter.Init | services/alias-gen/internal/storage/postgres/postgres.go:16-52 | opening succeeds exactly when the database answers; it leaves row 1 present, set to 1 only if it was missing, with every other row untouched |
| Counter.InitIdempotent | services/alias-gen/internal/storage/postgres/postgres.go:40-49 | opening twice gives the same table as opening once (`ON CONFLICT DO NOTHING`) |
| Counter.IncrementCounter | services/alias-gen/internal/storage/postgres/postgres.go:61-77 | it fails exactly when the database is down or row 1 is missing, and then returns 0 with nothing changed; otherwise it returns the old value plus one and stores it, touching no other row |
| Counter.FreshStart | services/alias-gen/internal/storage/postgres/postgres.go:40-49 | on a fresh database the row starts at 1 and the first increment hands out 2 |
| Counter.Run | services/alias-gen/internal/storage/postgres/postgres.go:61-77 | across any run of increments, some failing, the counter row never decreases and is never created |
| Counter.StrictlyIncreasing | services/alias-gen/internal/storage/postgres/postgres.go:61-77 | every successful increment after a successful one returns a strictly larger value |
| AliasGen.Generate | services/alias-gen/internal/http-server/handlers/alias/generate/generate.go:22-46 | an alias is returned exactly when the increment succeeds, and it decodes to the new counter value; otherwise the reply is "failed to increment counter" and the counter is unchanged |
| AliasGen.Serve | services/alias-gen/internal/http-server/handlers/alias/generate/generate.go:22-46 | a run of requests gives one reply each and leaves the counter where the same run of increments would |
| AliasGen.ServeIncreasing | services/alias-gen/internal/http-server/handlers/alias/generate/generate.go:31-38 | the aliases of a run decode to strictly increasing values above the starting counter; with no counter row, no alias is ever handed out |
| AliasGen.DistinctAliases | services/alias-gen/internal/http-server/handlers/alias/generate/generate.go:31-38 | no two requests of a run receive the same alias |
| AliasGen.FirstAlias | services/alias-gen/internal/http-server/handlers/alias/generate/generate.go:31-38 | the first request after a fresh start receives alias `"2"` |
| Sqlite.SaveUrl | services/main/internal/storage/sqlite/sqlite.go:54-73 | a prepare failure is an error; a taken alias is `ErrUrlExists` with nothing written; any other exec failure returns `nil` with nothing written, exactly as if it had succeeded; otherwise exactly the new row is appended and the alias unique key is kept |
| Sqlite.GetUrl | services/main/internal/storage/sqlite/sqlite.go:75-94 | `ErrUrlNotFound` exactly when a healthy statement finds no row; a healthy statement finding a row returns a url; a statement failure is a generic error; a returned url is stored under the alias |
| Sqlite.DeleteUrl | services/main/internal/storage/sqlite/sqlite.go:96-120 | success exactly when healthy and at least one row matches, which then removes every row with the alias; zero affected rows is `ErrUrlNotFound`; a prepare or exec failure is an error with the table unchanged; a failure to read the affected-row count is an error returned after every row with the alias was removed; the unique key is kept |
| Sqlite.SaveThenGet | services/main/internal/storage/sqlite/sqlite.go:54-94 | a fresh alias saved without faults is read back with its url |
| Sqlite.SaveTwice | services/main/internal/storage/sqlite/sqlite.go:63-69 | saving a taken alias again is `ErrUrlExists`, and the first url stays |
| Sqlite.DeleteThenGet | services/main/internal/storage/sqlite/sqlite.go:96-120 | after a successful delete the alias is not found, and a second delete is `ErrUrlNotFound` with the table unchanged |
| Sqlite.ResaveAfterDelete | services/main/internal/storage/sqlite/sqlite.go:54-120 | a deleted alias can be saved again and then resolves to the new url |
| Sqlite.DeleteKeepsOthers | services/main/internal/storage/sqlite/sqlite.go:96-120 | deleting one alias leaves every other alias's lookup unchanged, under any fault |
| Sqlite.GetStored | services/main/internal/storage/sqlite/sqlite.go:75-94 | under the unique key, a fault-free lookup returns a url exactly when that row is stored |
| Mongo.SaveUrl | services/main/internal/storage/mongo/mongo.go:43-58 | without a driver error, exactly one document is added, even for a taken alias; a driver error is wrapped and, in the model, writes nothing (see Left out); `ErrUrlExists` never occurs |
| Mongo.GetUrl | services/main/internal/storage/mongo/mongo.go:60-74 | `ErrUrlNotFound` exactly when no document matches and the driver is healthy; a healthy lookup of an alias with a document returns a url; a returned url is stored under the alias |
| Mongo.DeleteUrl | services/main/internal/storage/mongo/mongo.go:76-87 | success exactly when healthy and some document matches, and then exactly one document goes; zero deleted is `ErrUrlNotFound` |
| Mongo.DeleteRemovesOne | services/main/internal/storage/mongo/mongo.go:76-87 | a successful delete lowers the alias's document count by one and leaves every other alias's count unchanged |
| Mongo.TwoSavesOneDelete | services/main/internal/storage/mongo/mongo.go:43-87 | after two saves of one alias and one delete, the alias still resolves |
| Mongo.SaveThenGet | services/main/internal/storage/mongo/mongo.go:43-74 | a saved alias resolves, to the new url when the alias was fresh |
| Mongo.DuplicateKeepsFirst | services/main/internal/storage/mongo/mongo.go:43-74 | saving a taken alias reports success, but lookups keep returning the earlier url; which url a lookup returns rests on the model's choice that `FindOne` returns the earliest document (see `Mongo.GetUrl` under Left out) |
| Redis.SaveUrl | services/main/internal/cache/redis/redis.go:43-52 | on success the key holds the url with the 24-hour expiry, overwriting any earlier value; on failure nothing changes in the model (see Left out); other keys are untouched |
| Redis.GetUrl | services/main/internal/cache/redis/redis.go:54-63 | a value is returned exactly when the cache answers and the key exists; a missing key is an error like any other |
| Redis.DeleteUrl | services/main/internal/cache/redis/redis.go:65-74 | when the cache answers, the key is absent afterwards and the call succeeds whether or not the key was there; other keys are untouched |
| Redis.SaveThenGet | services/main/internal/cache/redis/redis.go:43-63 | a value written is read back |
| Redis.DeleteIdempotent | services/main/internal/cache/redis/redis.go:65-74 | a second delete succeeds and changes nothing |
| Backend.SaveUrl | services/main/internal/storage/sqlite/sqlite.go:54-73 | on either store: never `ErrUrlNotFound`; an error writes nothing, which for mongo is the model's assumption (see Left out); `ErrUrlExists` exactly on a healthy sqlite insert of a taken alias, never on mongo; a healthy save succeeds on mongo always and on sqlite for a fresh alias; a success appends exactly `{alias, url}`, except sqlite's swallowed exec failure, which answers success and writes nothing; the sqlite unique key is kept |
| Backend.GetUrl | services/main/internal/storage/mongo/mongo.go:60-74 | on either store, a fault-free lookup misses exactly when no record has the alias and otherwise returns a url, and a returned url is stored under it |
| Backend.DeleteUrl | services/main/internal/storage/mongo/mongo.go:76-87 | on either store, a delete succeeds exactly when it is fault-free and a record has the alias, and is `ErrUrlNotFound` exactly when it is fault-free and none has; any fault makes it fail; a success removes every record with the alias on sqlite and the earliest one on mongo; a failed delete changes nothing, except that sqlite's failed affected-row count has already removed every row with the alias |
| Service.SaveHandler | services/main/internal/http-server/handlers/url/save/save.go:56-115 | the generator is called exactly when the request passes decoding and validation with an empty alias; a success answers with the request's alias or the generated one, after a store save with that alias, and ends with one cache write; on any failure neither store nor cache changes; the store keeps its kind and unique key |
| Service.RedirectHandler | services/main/internal/http-server/handlers/url/redirect/redirect.go:40-89 | the cache is asked first; the store is asked exactly when the cache read fails; nothing is written; a redirect is answered exactly when the last call is the one click event |
| Service.SaveCacheInvisible | services/main/internal/http-server/handlers/url/save/save.go:105-108 | whether the cache write succeeds changes neither the response, the store nor the calls |
| Service.SaveClassifiesStoreErrors | services/main/internal/http-server/handlers/url/save/save.go:93-114 | `ErrUrlExists` answers "url already exists", any other store error "failed to add url", and success answers with the alias |
| Service.SaveEarlyExit | services/main/internal/http-server/handlers/url/save/save.go:64-91 | a decode failure answers "failed to decode request", a validation failure answers the validator's message, and a generator failure answers "failed to get alias"; each leaves store and cache untouched, and at most the generator was called |
| Service.GeneratedAliasNonEmpty | services/alias-gen/internal/http-server/handlers/alias/generate/generate.go:31-44 | when the main service's save with an empty alias is fed the alias generator's reply, a generator error answers "failed to get alias", and an OK answer carries a non-empty alias that decodes to the counter value after the increment |
| Service.SqliteSaveLookups | services/main/internal/storage/sqlite/sqlite.go:54-94 | after a successful sqlite insert whose exec worked, the new alias resolves to its url and every other alias exactly as before |
| Service.SaveSucceeded | services/main/internal/http-server/handlers/url/save/save.go:93-114 | a save that answers OK has had its store insert succeed, and its new state is that insert followed by the cache write of the same pair |
| Service.CoherentAfterSave | services/main/internal/http-server/handlers/url/save/save.go:93-108 | a successful sqlite insert whose exec worked, followed by a cache write of the same pair, keeps a coherent cache coherent, whether or not the cache write succeeds |
| Service.SavePreservesCoherence | services/main/internal/http-server/handlers/url/save/save.go:93-108 | on sqlite, unless the insert's exec fails, a save keeps every cached alias pointing at the url the store returns |
| Service.SwallowedExecFailure | services/main/internal/storage/sqlite/sqlite.go:63-72 | a non-unique exec failure on sqlite makes the save answer OK and cache the url while the store holds nothing new |
| Service.SqliteSaveOk | services/main/internal/http-server/handlers/url/save/save.go:93-114 | on sqlite, a healthy save of a fresh named alias answers OK, appends the record and writes the cache |
| Service.MongoSaveOk | services/main/internal/storage/mongo/mongo.go:43-58 | on mongo, a healthy save of a named alias always answers OK, appends the record and writes the cache, taken alias or not |
| Service.MongoDuplicateBreaksCoherence | services/main/internal/http-server/handlers/url/save/save.go:93-108 | on mongo, two saves of one fresh alias with different urls both answer OK, after which the cache holds the second url while the store returns the first; that the store returns the first rests on the model's choice that `FindOne` returns the earliest document (see `Mongo.GetUrl` under Left out) |
| Service.RedirectCacheHit | services/main/internal/http-server/handlers/url/redirect/redirect.go:51-69 | a cached alias redirects to the cached url without asking the store |
| Service.RedirectFallback | services/main/internal/http-server/handlers/url/redirect/redirect.go:51-66 | after a cache miss or error, `ErrUrlNotFound` answers "url not found", any other store error "internal error", and a stored url redirects |
| Service.RedirectTrackInvisible | services/main/internal/http-server/handlers/url/redirect/redirect.go:81-88 | whether the click event is delivered never changes the response or anything else |
| Service.RedirectCacheInvisible | services/main/internal/http-server/handlers/url/redirect/redirect.go:51-69 | with a coherent cache and a healthy store, an unreachable cache changes no response |
| Service.SaveThenRedirect | services/main/internal/http-server/handlers/url/save/save.go:93-114 | on sqlite, a url saved successfully redirects afterwards, whatever the cache does during either call |
| Monolith.SaveHandler | internal/http-server/handlers/url/save/save.go:39-90 | a decode failure answers "failed to decode request" and a validation failure the validator's message, and neither touches anything; a success answers with the request's alias, or the random one when it was empty, after exactly one store save with it |
| Monolith.SaveClassifiesStoreErrors | internal/http-server/handlers/url/save/save.go:72-88 | each of "url already exists", "failed to add url" and success corresponds exactly to one class of store answer |
| Monolith.RandomAliasLength | internal/http-server/handlers/url/save/save.go:28 | a generated alias is six characters long |
| Monolith.RedirectHandler | internal/http-server/handlers/url/redirect/redirect.go:22-60 | an empty alias answers "invalid request" without asking the store; otherwise exactly one lookup is made; nothing is written; a redirect target is stored under the alias |
| Monolith.RedirectClassifies | internal/http-server/handlers/url/redirect/redirect.go:40-58 | for a non-empty alias, "not found", "internal error" and a redirect each correspond exactly to one class of store answer |
| Monolith.DeleteHandler | internal/http-server/handlers/url/delete/delete.go:21-52 | an empty alias answers "invalid request" and changes nothing; otherwise exactly one delete call is made; OK is answered only when the store was healthy and held a record with the alias, and on sqlite leaves no row with it; a miss changes nothing |
| Monolith.DeleteClassifies | internal/http-server/handlers/url/delete/delete.go:37-51 | for a non-empty alias, "alias not found", "failed to delete url" and OK each correspond exactly to one class of store answer |
| Monolith.SaveRedirectDelete | internal/http-server/handlers/url/delete/delete.go:21-52 | on a healthy sqlite store, in sequence: a save with an empty alias gets the random alias, the alias redirects to the url, a delete succeeds, a second delete answers "alias not found", and a redirect answers "not found" |
| Monolith.DeleteTwice | internal/http-server/handlers/url/delete/delete.go:37-42 | on a healthy sqlite store, a repeated delete always answers "alias not found" |
| Monolith.SaveAgreesWithService | internal/http-server/handlers/url/save/save.go:67-88 | given the same alias, the monolith's save and the main service's save give the same response and the same store |
| Monolith.RedirectAgreesWithService | internal/http-server/handlers/url/redirect/redirect.go:40-58 | with an empty cache, the main service redirects exactly when the monolith does, to the same url, and the miss and error answers correspond |

## Left out

- Process wiring: configuration, HTTP routing, start-up and shutdown (`main.go` files, `config.go`, the `New` and `Close` methods of the url stores and the cache). They only build the objects modelled here. Failing to open a store at start-up ends the program.
- JSON decoding and the `validator` tags (`required,url`) are not modelled. Their outcome is a parameter: `body` is None on a decode failure, and `invalid` carries the validator's message.
- The random alias (`random.NewRandomString`) and the alias service client (`alias.go`) are foreign code. Their results are parameters: a six-character string, and `Result<string>`.
- The analytics sink is a flag, `trackOk`. The click event's timestamp, latency, user agent, IP and referrer come from the clock and the request, so they are not modelled. The click is recorded as a `Track(alias)` call.
- Redis expiry is not modelled. Each entry records the 24-hour TTL it was written with and stays until deleted.
- The main service's delete handler is not part of this model, so its calls to the cache are not modelled either. The monolith's delete handler is modelled on top of the store's `DeleteUrl`, since the monolith's own stores have no delete method.
- Database faults are injected per call: failed prepare, failed exec, or a failed affected-row count. Connection loss, timeouts and context cancellation are all folded into these.
- Concurrency and request interleaving are not modelled. Each handler call is atomic.
- Mongo.SaveUrl, Redis.SaveUrl, Backend.SaveUrl: a failed mongo or redis call is modelled as having had no effect. A call that times out or is cancelled may already have been applied on the server; the model does not promise anything about that case.
- Logging through `slog` (`log.Info`, `log.Error`) is not modelled. It is the only trace of a failed cache write on save and of a failed click event on redirect; the model shows both as invisible to the response (`Service.SaveCacheInvisible`, `Service.RedirectTrackInvisible`).
- Counter.IncrementCounter: 64-bit overflow of the `BIGINT` counter is not modelled. The counter is an unbounded integer. `Base62.Int64Length` bounds alias length only for the counter's `int64` range.
- Mongo.GetUrl: `FindOne` may return any matching document. The model returns the earliest inserted one.
- Mongo.DeleteUrl: `DeleteOne` may remove any matching document. The model removes the earliest inserted one.
- Key-gen's `incrementCounter` is the same statement as the alias generator's `IncrementCounter`, so `KeyGen.GenerateOnce` reuses `Counter.IncrementCounter`. The printed line around the alias is not modelled.
- The monolith's sqlite and mongo stores (`internal/storage/sqlite/sqlite.go:53-91`, `internal/storage/mongo/mongo.go:44-75`) behave like the main service's `SaveUrl` and `GetUrl`. The only difference is that the monolith's stores do not close their prepared statements. One model, `Backend`, serves both.

## Behaviour of the code as written

Each behaviour below follows from the code as written, and is modelled that way.

- **Mongo never reports a conflict.** A mongo store gives no `ErrUrlExists`, because the collection has no unique index (`Mongo.DuplicateKeepsFirst`). A duplicate save on the main service then leaves the cache disagreeing with the store (`Service.MongoDuplicateBreaksCoherence`).
- **Sqlite swallows exec failures.** A sqlite exec failure other than a uniqueness violation is swallowed, so the save handler answers OK for a url that was never stored (`Service.SwallowedExecFailure`).
- **A failed affected-row count still deletes.** When only reading the affected-row count fails, sqlite's `DeleteUrl` has already removed the row but returns an error (`Sqlite.DeleteUrl`).
- **The redirect never fills the cache.** A store hit is not copied into the cache.
- **The monolith's redirect miss is worded differently.** On `ErrUrlNotFound` the monolith's redirect answers "not found", while its handler test expects a body containing "url not found". The main service's redirect answers "url not found" (`Monolith.RedirectAgreesWithService`).

=== FILE: aliasgen.dfy ===
/**
 The alias generator service's request handler: one counter increment per
 request, then the new value encoded in base 62.
 */
module AliasGen {
  import opened Shared
  import opened Counter
  import Base62

  /** The JSON reply: an OK status with an alias, or an error message. */
  datatype Response = Alias(alias: string) | Error(msg: string)

  datatype Handled = Handled(response: Response, table: Table)

  /** `New`'s handler: increment once; on error reply with a message, otherwise with the alias. */
  function Generate(table: Table, up: bool): (r: Handled)
    ensures r.response.Alias? <==> up && RowId in table
    ensures r.response.Error? ==> r.response.msg == "failed to increment counter" && r.table == table
    ensures r.response.Alias? ==> r.table == table[RowId := table[RowId] + 1]
    ensures r.response.Alias? && table[RowId] >= -1 ==>
      |r.response.alias| > 0 && Base62.Decode(r.response.alias) == r.table[RowId]
  {
    var inc := IncrementCounter(table, up);
    if inc.failed then Handled(Error("failed to increment counter"), inc.table)
    else Handled(Alias(Base62.GenerateAlias(inc.count)), inc.table)
  }

  /** A run of requests, each finding the database up or down, in order. */
  datatype Served = Served(responses: seq<Response>, table: Table)

  function Serve(table: Table, ups: seq<bool>): (r: Served)
    ensures |r.responses| == |ups|
    ensures r.table == Run(table, ups)
  {
    if ups == [] then Served([], table)
    else
      var first := Generate(table, ups[0]);
      var rest := Serve(first.table, ups[1..]);
      Served([first.response] + rest.responses, rest.table)
  }

  /** Every alias among `rs` decodes to a value above `low`. */
  predicate AllAbove(rs: seq<Response>, low: int)
  {
    forall i :: 0 <= i < |rs| && rs[i].Alias? ==> low < Base62.Decode(rs[i].alias)
  }

  /** The aliases among `rs` decode to strictly increasing values, in response order. */
  predicate Increasing(rs: seq<Response>)
  {
    forall i, j :: 0 <= i < j < |rs| && rs[i].Alias? && rs[j].Alias? ==>
      Base62.Decode(rs[i].alias) < Base62.Decode(rs[j].alias)
  }

  predicate NoAlias(rs: seq<Response>)
  {
    forall i :: 0 <= i < |rs| ==> rs[i].Error?
  }

  /** Aliases handed out by a run decode to strictly increasing counter values above the start. */
  lemma {:induction false} ServeIncreasing(table: Table, ups: seq<bool>)
    requires RowId in table ==> table[RowId] >= 0
    ensures RowId in table ==> AllAbove(Serve(table, ups).responses, table[RowId])
    ensures RowId !in table ==> NoAlias(Serve(table, ups).responses)
    ensures Increasing(Serve(table, ups).responses)
    decreases |ups|
  {
    if ups != [] {
      var first := Generate(table, ups[0]);
      var rest := Serve(first.table, ups[1..]);
      ServeIncreasing(first.table, ups[1..]);
      var rs := Serve(table, ups).responses;
      assert rs == [first.response] + rest.responses;
      assert rs[0] == first.response;
      assert forall k :: 1 <= k < |rs| ==> rs[k] == rest.responses[k - 1];
      if RowId in table {
        assert first.table[RowId] >= table[RowId];
        if first.response.Alias? {
          assert Base62.Decode(first.response.alias) == first.table[RowId];
        }
      } else {
        assert first.table == table;
      }
    }
  }

  /** Over a counter that never went negative, every alias of a run is different from every other. */
  lemma DistinctAliases(table: Table, ups: seq<bool>)
    requires RowId in table ==> table[RowId] >= 0
    ensures var rs := Serve(table, ups).responses;
      forall i, j :: 0 <= i < j < |rs| && rs[i].Alias? && rs[j].Alias? ==> rs[i].alias != rs[j].alias
  {
    ServeIncreasing(table, ups);
  }

  /** The first request after a fresh start is answered with alias `2`. */
  lemma FirstAlias()
    ensures Generate(Init(map[], true).value, true).response == Alias("2")
  {
    assert Base62.Digits(2) == [Base62.Alphabet()[2]];
  }
}

=== FILE: backend.dfy ===
/**
 The persistent store the handlers see: one of the two backends, chosen
 once at start-up, behind the `SaveUrl`/`GetUrl`/`DeleteUrl` interface.
 */
module Backend {
  import opened Shared
  import opened Docs
  import Sqlite
  import Mongo

  datatype Kind = SqliteStore | MongoStore

  datatype Store = Store(kind: Kind, docs: seq<Doc>)

  /** The error a call returned (None is `nil`) and the store afterwards. */
  datatype Written = Written(err: Option<StoreError>, store: Store)

  /** The sqlite table never holds two rows with one alias. */
  predicate Valid(store: Store)
  {
    store.kind == SqliteStore ==> UniqueAliases(store.docs)
  }

  function SaveUrl(store: Store, url: string, alias: string, fault: Fault): (r: Written)
    ensures r.store.kind == store.kind
    ensures r.err != Some(NotFound)
    ensures r.err.Some? ==> r.store == store
    ensures store.kind == MongoStore ==> r.err != Some(Exists)
    ensures r.err == Some(Exists) <==> store.kind == SqliteStore && !Sqlite.StatementFails(fault) && Count(store.docs, alias) > 0
    ensures fault == NoFault && (store.kind == MongoStore || Count(store.docs, alias) == 0) ==> r.err == None
    ensures r.err == None && !(store.kind == SqliteStore && fault == ExecFails) ==> r.store.docs == store.docs + [Doc(alias, url)]
    ensures store.kind == SqliteStore && fault == ExecFails ==> r == Written(None, store)
    ensures Valid(store) ==> Valid(r.store)
  {
    match store.kind
    case SqliteStore =>
      var w := Sqlite.SaveUrl(store.docs, url, alias, fault);
      Written(w.err, Store(SqliteStore, w.docs))
    case MongoStore =>
      var w := Mongo.SaveUrl(store.docs, url, alias, fault);
      Written(w.err, Store(MongoStore, w.docs))
  }

  function GetUrl(store: Store, alias: string, fault: Fault): (r: Result<string>)
    ensures r.Ok? ==> Doc(alias, r.value) in store.docs
    ensures r.Fail? ==> r.error != Exists
    ensures fault == NoFault ==> (r == Fail(NotFound) <==> Count(store.docs, alias) == 0)
    ensures fault == NoFault && Count(store.docs, alias) > 0 ==> r.Ok?
  {
    match store.kind
    case SqliteStore => Sqlite.GetUrl(store.docs, alias, fault)
    case MongoStore => Mongo.GetUrl(store.docs, alias, fault)
  }

  function DeleteUrl(store: Store, alias: string, fault: Fault): (r: Written)
    ensures r.store.kind == store.kind
    ensures r.err != Some(Exists)
    ensures r.err == None <==> fault == NoFault && Count(store.docs, alias) > 0
    ensures r.err == Some(NotFound) <==> fault == NoFault && Count(store.docs, alias) == 0
    ensures r.err == Some(NotFound) ==> r.store == store
    ensures r.err.Some? && !(store.kind == SqliteStore && fault == RowsAffectedFails) ==> r.store == store
    ensures store.kind == SqliteStore && fault == RowsAffectedFails ==> r.store.docs == RemoveAll(store.docs, alias)
    ensures r.err == None && store.kind == SqliteStore ==> r.store.docs == RemoveAll(store.docs, alias)
    ensures r.err == None && store.kind == MongoStore ==> r.store.docs == RemoveFirst(store.docs, alias)
    ensures Valid(store) ==> Valid(r.store)
  {
    match store.kind
    case SqliteStore =>
      var w := Sqlite.DeleteUrl(store.docs, alias, fault);
      Written(w.err, Store(SqliteStore, w.docs))
    case MongoStore =>
      var w := Mongo.DeleteUrl(store.docs, alias, fault);
      Written(w.err, Store(MongoStore, w.docs))
  }
}

=== FILE: base62.dfy ===
/**
 The base-62 alias codec of the alias generator service.

 An alias is the counter value written in base 62, most significant digit
 first, over the alphabet `0-9A-Za-z`. Zero is the single symbol `0`; a
 positive value never starts with `0`; a negative value gives the empty
 string because the conversion loop never runs.
 */
module Base62 {

  /** Number of symbols, `len(alphabet)` in the source. */
  const Base: int := 62

  /**
   The symbol for digit `d`: `0`-`9`, then `A`-`Z`, then `a`-`z`. Only
   digits 0..61 are ever asked for; anything else maps to `?`.
   */
  function Symbol(d: int): char
  {
    if 0 <= d < 10 then ('0' as int + d) as char
    else if 10 <= d < 36 then ('A' as int + (d - 10)) as char
    else if 36 <= d < Base then ('a' as int + (d - 36)) as char
    else '?'
  }

  /** The alphabet `0123456789ABCDEFGHIJKLMNOPQRSTUVWXYZabcdefghijklmnopqrstuvwxyz`. */
  function Alphabet(): string
  {
    seq(Base, Symbol)
  }

  /** Inverse of `Symbol`: the digit a character stands for, or -1 if it is not in the alphabet. */
  function DigitValue(c: char): int
  {
    if '0' <= c <= '9' then c as int - '0' as int
    else if 'A' <= c <= 'Z' then c as int - 'A' as int + 10
    else if 'a' <= c <= 'z' then c as int - 'a' as int + 36
    else -1
  }

  predicate InAlphabet(c: char)
  {
    0 <= DigitValue(c)
  }

  /** Every character of `s` is one of the 62 symbols. */
  predicate AllSymbols(s: string)
  {
    forall i :: 0 <= i < |s| ==> InAlphabet(s[i])
  }

  /** The digits and upper-case letters of the alphabet, piece by piece. */
  lemma AlphabetFirstHalf()
    ensures Alphabet()[0..8] == "01234567" && Alphabet()[8..16] == "89ABCDEF"
    ensures Alphabet()[16..24] == "GHIJKLMN" && Alphabet()[24..32] == "OPQRSTUV"
  {
    assert Alphabet()[0..8] == "01234567";
    assert Alphabet()[8..16] == "89ABCDEF";
    assert Alphabet()[16..24] == "GHIJKLMN";
    assert Alphabet()[24..32] == "OPQRSTUV";
  }

  /** The rest of the upper-case letters and the lower-case letters, piece by piece. */
  lemma AlphabetSecondHalf()
    ensures Alphabet()[32..40] == "WXYZabcd" && Alphabet()[40..48] == "efghijkl"
    ensures Alphabet()[48..56] == "mnopqrst" && Alphabet()[56..62] == "uvwxyz"
  {
    assert Alphabet()[32..40] == "WXYZabcd";
    assert Alphabet()[40..48] == "efghijkl";
    assert Alphabet()[48..56] == "mnopqrst";
    assert Alphabet()[56..62] == "uvwxyz";
  }

  /** The alphabet is the source's 62-symbol constant, written here in eight-symbol pieces. */
  lemma AlphabetLiteral()
    ensures |Alphabet()| == 62
    ensures Alphabet() == "01234567" + "89ABCDEF" + "GHIJKLMN" + "OPQRSTUV" + "WXYZabcd" + "efghijkl" + "mnopqrst" + "uvwxyz"
  {
    AlphabetFirstHalf();
    AlphabetSecondHalf();
    var a := Alphabet();
    assert a[0..32] == a[0..8] + a[8..16] + a[16..24] + a[24..32];
    assert a[32..62] == a[32..40] + a[40..48] + a[48..56] + a[56..62];
    assert a == a[0..32] + a[32..62];
  }

  lemma SymbolDigit(d: int)
    requires 0 <= d < Base
    ensures DigitValue(Alphabet()[d]) == d
    ensures InAlphabet(Alphabet()[d])
  {
  }

  /** `InAlphabet` is exactly membership in `Alphabet`. */
  lemma InAlphabetIsMembership(c: char)
    ensures InAlphabet(c) <==> c in Alphabet()
  {
    if InAlphabet(c) {
      assert Alphabet()[DigitValue(c)] == c;
    }
  }

  function Pow(k: nat): (r: nat)
    ensures r >= 1
  {
    if k == 0 then 1 else Base * Pow(k - 1)
  }

  /**
   The loop `for n > 0 { prepend alphabet[n % 62]; n = n / 62 }`, as the
   digits it produces, most significant first. Empty for n <= 0.
   */
  function Digits(n: int): (r: string)
    decreases if n > 0 then n else 0
    ensures AllSymbols(r)
    ensures n > 0 <==> |r| > 0
    ensures n > 0 ==> r[0] != Alphabet()[0]
  {
    if n <= 0 then []
    else
      SymbolDigit(n % Base);
      Digits(n / Base) + [Alphabet()[n % Base]]
  }

  /** `base62Encode`: zero is the first symbol, otherwise the digits of `n`. */
  function Encode(n: int): (r: string)
    ensures AllSymbols(r)
    ensures n < 0 <==> r == []
    ensures n == 0 ==> r == [Alphabet()[0]]
    ensures n > 0 ==> r[0] != Alphabet()[0]
  {
    if n == 0 then [Alphabet()[0]] else Digits(n)
  }

  /** `GenerateAlias` only forwards to the codec. */
  function GenerateAlias(n: int): (alias: string)
    ensures n >= 0 ==> |alias| > 0 && Decode(alias) == n
    ensures n < 0 ==> alias == []
  {
    if n >= 0 then
      EncodeDecode(n);
      Encode(n)
    else
      Encode(n)
  }

  /** Reference decoder: most-significant-first base-62 digits, digit = index in the alphabet. */
  function Decode(s: string): int
  {
    if s == [] then 0 else Decode(s[..|s| - 1]) * Base + DigitValue(s[|s| - 1])
  }

  lemma {:induction false} DigitsDecode(n: int)
    requires n >= 0
    ensures Decode(Digits(n)) == n
    decreases n
  {
    if n > 0 {
      var s := Digits(n);
      assert s[..|s| - 1] == Digits(n / Base);
      DigitsDecode(n / Base);
      SymbolDigit(n % Base);
    }
  }

  /** Reading an alias back as base-62 digits gives the number it encodes. */
  lemma EncodeDecode(n: int)
    requires n >= 0
    ensures Decode(Encode(n)) == n
  {
    if n == 0 {
      SymbolDigit(0);
      assert Encode(0)[..0] == [];
    } else {
      DigitsDecode(n);
    }
  }

  /** Distinct counters give distinct aliases; only negatives share one (the empty string). */
  lemma EncodeInjective(n: int, m: int)
    requires Encode(n) == Encode(m)
    ensures n == m || (n < 0 && m < 0)
  {
    if n >= 0 && m >= 0 {
      EncodeDecode(n);
      EncodeDecode(m);
    }
  }

  /** A canonical alias: all symbols, non-empty, and no leading `0` unless it is `0` itself. */
  predicate Canonical(s: string)
  {
    && |s| > 0
    && AllSymbols(s)
    && (s[0] == Alphabet()[0] ==> s == [Alphabet()[0]])
  }

  lemma {:induction false} DecodeNonNegative(s: string)
    requires AllSymbols(s)
    ensures Decode(s) >= 0
    decreases |s|
  {
    if s != [] {
      DecodeNonNegative(s[..|s| - 1]);
    }
  }

  /** Digits without a leading zero decode to a positive number (or zero when empty). */
  lemma {:induction false} DecodePositive(s: string)
    requires AllSymbols(s)
    requires |s| > 0 && s[0] != Alphabet()[0]
    ensures Decode(s) > 0
    decreases |s|
  {
    var p := s[..|s| - 1];
    if |s| == 1 {
      assert p == [];
      SymbolDigit(0);
    } else {
      assert p[0] == s[0];
      DecodePositive(p);
      DecodeNonNegative(p);
    }
  }

  /** A symbol's digit value picks that symbol out of the alphabet. */
  lemma DigitSymbol(c: char)
    requires InAlphabet(c)
    ensures 0 <= DigitValue(c) < Base && Alphabet()[DigitValue(c)] == c
  {
  }

  /** Appending digit `d` to the digits of `q` and dividing by 62 takes it off again. */
  lemma DivModDigit(q: int, d: int)
    requires q >= 0 && 0 <= d < Base
    ensures (q * Base + d) / Base == q && (q * Base + d) % Base == d
  {
  }

  /** The last digit of a positive number is its remainder; the rest are the digits of the quotient. */
  lemma DigitsStep(n: int)
    requires n > 0
    ensures Digits(n) == Digits(n / Base) + [Alphabet()[n % Base]]
  {
  }

  /** Dropping the last symbol keeps every symbol in the alphabet and any leading symbol. */
  lemma DropLast(s: string)
    requires |s| > 0 && AllSymbols(s)
    ensures AllSymbols(s[..|s| - 1])
    ensures |s| > 1 ==> s[..|s| - 1][0] == s[0]
  {
  }

  lemma {:induction false} DecodeDigits(s: string)
    requires AllSymbols(s)
    requires |s| > 0 ==> s[0] != Alphabet()[0]
    ensures Digits(Decode(s)) == s
    decreases |s|
  {
    if s != [] {
      var p := s[..|s| - 1];
      var c := s[|s| - 1];
      DropLast(s);
      DecodeDigits(p);
      DecodeNonNegative(p);
      DecodePositive(s);
      DigitSymbol(c);
      var n := Decode(s);
      var q := Decode(p);
      var d := DigitValue(c);
      assert n == q * Base + d;
      DivModDigit(q, d);
      DigitsStep(n);
      assert Digits(n) == Digits(q) + [Alphabet()[d]];
      assert s == p + [c];
    }
  }

  /** The other direction of the bijection: every canonical alias is the encoding of its value. */
  lemma CanonicalRoundTrip(s: string)
    requires Canonical(s)
    ensures Decode(s) >= 0 && Encode(Decode(s)) == s
  {
    DecodeNonNegative(s);
    if s[0] == Alphabet()[0] {
      SymbolDigit(0);
      assert s[..0] == [];
    } else {
      DecodeDigits(s);
      DecodePositive(s);
    }
  }

  /** Encodings are exactly the canonical strings. */
  lemma EncodeIsCanonical(n: int)
    requires n >= 0
    ensures Canonical(Encode(n))
  {
  }

  lemma {:induction false} DigitsLength(n: int)
    requires n > 0
    ensures Pow(|Digits(n)| - 1) <= n < Pow(|Digits(n)|)
    decreases n
  {
    if n >= Base {
      DigitsLength(n / Base);
    }
  }

  /** No padding: a positive alias has exactly as many symbols as base-62 digits of n. */
  lemma EncodeLength(n: int)
    requires n > 0
    ensures Pow(|Encode(n)| - 1) <= n < Pow(|Encode(n)|)
  {
    DigitsLength(n);
  }

  lemma {:induction false} PowMonotone(i: nat, j: nat)
    requires i <= j
    ensures Pow(i) <= Pow(j)
    decreases j
  {
    if i < j {
      PowMonotone(i, j - 1);
    }
  }

  /** Every non-negative int64 encodes to between 1 and 11 symbols. */
  lemma Int64Length(n: int)
    requires 0 <= n < 0x8000_0000_0000_0000
    ensures 1 <= |Encode(n)| <= 11
  {
    if n > 0 {
      EncodeLength(n);
      assert Pow(11) == 52036560683837093888;
      if |Encode(n)| > 11 {
        PowMonotone(11, |Encode(n)| - 1);
      }
    }
  }

  /**
   The source's loop: prepend `alphabet[n % 62]` and divide until n is not
   positive, after the special case for zero.
   */
  method EncodeLoop(n: int) returns (s: string)
    ensures s == Encode(n)
    ensures n >= 0 ==> Decode(s) == n
  {
    if n == 0 {
      s := [Alphabet()[0]];
      EncodeDecode(0);
      return;
    }
    var chars: string := [];
    var m := n;
    while m > 0
      invariant Digits(m) + chars == Digits(n)
      decreases if m > 0 then m else 0
    {
      chars := [Alphabet()[m % Base]] + chars;
      m := m / Base;
    }
    s := chars;
    if n >= 0 {
      EncodeDecode(n);
    }
  }

  lemma Examples()
    ensures Encode(0) == "0" && Encode(61) == "z" && Encode(62) == "10"
    ensures Encode(-1) == ""
  {
    assert Digits(61) == [Alphabet()[61]];
    assert Digits(62) == Digits(1) + [Alphabet()[0]];
  }
}

=== FILE: counter.dfy ===
/**
 The alias generator's postgres counter: a `counter` table whose row 1
 holds the last value handed out. Statements run one at a time; the
 database makes each of them atomic.
 */
module Counter {
  import opened Shared

  /** The `counter` table: row id to value. */
  type Table = map<int, int>

  /** The fixed id of the one row the service uses. */
  const RowId: int := 1

  /**
   `New`: create the table if missing, then `INSERT (1, 1) ON CONFLICT DO NOTHING`.
   `up` is false when opening, creating or inserting fails.
   */
  function Init(table: Table, up: bool): (r: Result<Table>)
    ensures r.Ok? <==> up
    ensures r.Fail? ==> r.error == Other
    ensures r.Ok? ==> RowId in r.value
    ensures r.Ok? && RowId !in table ==> r.value[RowId] == 1
    ensures r.Ok? && RowId in table ==> r.value == table
    ensures r.Ok? ==> forall id :: id != RowId ==> (id in r.value <==> id in table)
    ensures r.Ok? ==> forall id :: id != RowId && id in table ==> r.value[id] == table[id]
  {
    if !up then Fail(Other)
    else if RowId in table then Ok(table)
    else Ok(table[RowId := 1])
  }

  /** What `IncrementCounter` returns, `(count, err)`, and the table afterwards. */
  datatype Incremented = Incremented(count: int, failed: bool, table: Table)

  /**
   `UPDATE counter SET value = value + 1 WHERE id = 1 RETURNING value`.
   With the database down, or no row 1 to update (`sql.ErrNoRows` from the
   scan), the result is `(0, err)` and nothing changes.
   */
  function IncrementCounter(table: Table, up: bool): (r: Incremented)
    ensures r.failed <==> !up || RowId !in table
    ensures r.failed ==> r.count == 0 && r.table == table
    ensures !r.failed ==> r.count == table[RowId] + 1
    ensures !r.failed ==> r.table == table[RowId := r.count]
    ensures forall id :: id != RowId ==> (id in r.table <==> id in table)
    ensures forall id :: id != RowId && id in table ==> r.table[id] == table[id]
  {
    if up && RowId in table then
      var count := table[RowId] + 1;
      Incremented(count, false, table[RowId := count])
    else Incremented(0, true, table)
  }

  /** Opening the store twice is as good as once: an existing row keeps its value. */
  lemma InitIdempotent(table: Table)
    ensures Init(Init(table, true).value, true) == Init(table, true)
  {
  }

  /** On a fresh database the row starts at 1 and the first increment hands out 2. */
  lemma FreshStart()
    ensures Init(map[], true) == Ok(map[RowId := 1])
    ensures IncrementCounter(Init(map[], true).value, true).count == 2
  {
  }

  /** The counter after a run of increment attempts, each up or down. */
  function Run(table: Table, ups: seq<bool>): (r: Table)
    ensures RowId in table ==> RowId in r && r[RowId] >= table[RowId]
    ensures RowId !in table ==> r == table
  {
    if ups == [] then table
    else Run(IncrementCounter(table, ups[0]).table, ups[1..])
  }

  /** Successive successful increments return strictly increasing values. */
  lemma {:induction false} StrictlyIncreasing(table: Table, ups: seq<bool>, up: bool)
    requires RowId in table
    ensures var first := IncrementCounter(table, true);
      var later := IncrementCounter(Run(first.table, ups), up);
      !later.failed ==> later.count > first.count
  {
  }
}

=== FILE: docs.dfy ===
/**
 Queries over a sequence of stored records, in insertion order. Both the
 sqlite table and the mongo collection are modelled as such a sequence;
 they differ only in whether aliases are kept unique.
 */
module Docs {
  import opened Shared

  /** Number of records carrying `alias`. */
  function Count(docs: seq<Doc>, alias: string): nat
  {
    if docs == [] then 0
    else (if docs[0].alias == alias then 1 else 0) + Count(docs[1..], alias)
  }

  /** At most one record per alias: the `UNIQUE` constraint on the alias column. */
  predicate UniqueAliases(docs: seq<Doc>)
  {
    forall i, j :: 0 <= i < j < |docs| ==> docs[i].alias != docs[j].alias
  }

  /** Position of the first record with `alias`, if any. */
  function Find(docs: seq<Doc>, alias: string): (r: Option<nat>)
    ensures r.Some? ==> r.value < |docs| && docs[r.value].alias == alias
    ensures r.Some? ==> forall j :: 0 <= j < r.value ==> docs[j].alias != alias
    ensures r.None? <==> forall j :: 0 <= j < |docs| ==> docs[j].alias != alias
  {
    if docs == [] then None
    else if docs[0].alias == alias then Some(0)
    else match Find(docs[1..], alias)
      case None => None
      case Some(i) => Some(i + 1)
  }

  lemma {:induction false} CountZero(docs: seq<Doc>, alias: string)
    ensures Count(docs, alias) == 0 <==> forall j :: 0 <= j < |docs| ==> docs[j].alias != alias
    decreases |docs|
  {
    if docs != [] {
      CountZero(docs[1..], alias);
      if Count(docs, alias) == 0 {
        forall j | 0 <= j < |docs| ensures docs[j].alias != alias {
          if j > 0 {
            assert docs[j] == docs[1..][j - 1];
          }
        }
      } else if docs[0].alias != alias {
        var k :| 0 <= k < |docs[1..]| && docs[1..][k].alias == alias;
        assert docs[k + 1].alias == alias;
      }
    }
  }

  /** The url of the first record with `alias`: what `SELECT`/`FindOne` return. */
  function Lookup(docs: seq<Doc>, alias: string): (r: Option<string>)
    ensures r.Some? <==> Count(docs, alias) > 0
    ensures r.Some? ==> Doc(alias, r.value) in docs
  {
    CountZero(docs, alias);
    match Find(docs, alias)
    case None => None
    case Some(i) => Some(docs[i].url)
  }

  lemma {:induction false} CountAppend(docs: seq<Doc>, d: Doc, alias: string)
    ensures Count(docs + [d], alias) == Count(docs, alias) + (if d.alias == alias then 1 else 0)
    decreases |docs|
  {
    if docs == [] {
      assert [d][1..] == [];
    } else {
      assert (docs + [d])[1..] == docs[1..] + [d];
      CountAppend(docs[1..], d, alias);
    }
  }

  /** Appending a record never hides an earlier one from `Lookup`. */
  lemma LookupAppend(docs: seq<Doc>, d: Doc, alias: string)
    ensures Lookup(docs, alias).Some? ==> Lookup(docs + [d], alias) == Lookup(docs, alias)
    ensures Lookup(docs, alias).None? && d.alias == alias ==> Lookup(docs + [d], alias) == Some(d.url)
    ensures d.alias != alias ==> Lookup(docs + [d], alias) == Lookup(docs, alias)
  {
    var e := docs + [d];
    var f := Find(docs, alias);
    var g := Find(e, alias);
    if f.Some? {
      assert e[f.value] == docs[f.value];
    } else {
      assert e[|docs|] == d;
    }
  }

  /** `DELETE FROM url WHERE alias = ?`: every record with `alias` goes, the rest keep their order. */
  function RemoveAll(docs: seq<Doc>, alias: string): (r: seq<Doc>)
    ensures forall d :: d in r <==> d in docs && d.alias != alias
    ensures |r| + Count(docs, alias) == |docs|
  {
    if docs == [] then []
    else if docs[0].alias == alias then RemoveAll(docs[1..], alias)
    else [docs[0]] + RemoveAll(docs[1..], alias)
  }

  /** `RemoveAll` leaves no record with `alias` and every other alias's count as it was. */
  lemma {:induction false} RemoveAllCounts(docs: seq<Doc>, alias: string, other: string)
    requires other != alias
    ensures Count(RemoveAll(docs, alias), other) == Count(docs, other)
    ensures Count(RemoveAll(docs, alias), alias) == 0
    decreases |docs|
  {
    if docs != [] {
      RemoveAllCounts(docs[1..], alias, other);
      var rest := RemoveAll(docs[1..], alias);
      if docs[0].alias != alias {
        assert ([docs[0]] + rest)[1..] == rest;
      }
    }
  }

  /** `RemoveAll` leaves the records of every other alias exactly as they were. */
  lemma {:induction false} RemoveAllOthers(docs: seq<Doc>, alias: string, other: string)
    requires other != alias
    ensures Count(RemoveAll(docs, alias), other) == Count(docs, other)
    ensures Lookup(RemoveAll(docs, alias), other) == Lookup(docs, other)
    ensures Count(RemoveAll(docs, alias), alias) == 0
    decreases |docs|
  {
    RemoveAllCounts(docs, alias, other);
    if docs != [] {
      RemoveAllOthers(docs[1..], alias, other);
      assert docs == [docs[0]] + docs[1..];
      LookupCons(docs[0], docs[1..], other);
      if docs[0].alias != alias {
        LookupCons(docs[0], RemoveAll(docs[1..], alias), other);
      }
    }
  }

  lemma LookupCons(d: Doc, docs: seq<Doc>, alias: string)
    ensures Lookup([d] + docs, alias) == if d.alias == alias then Some(d.url) else Lookup(docs, alias)
  {
    var e := [d] + docs;
    assert e[0] == d && e[1..] == docs;
  }

  /** `DeleteOne`: the first record with `alias` goes, if there is one. */
  function RemoveFirst(docs: seq<Doc>, alias: string): (r: seq<Doc>)
    ensures Count(docs, alias) == 0 ==> r == docs
    ensures Count(docs, alias) > 0 ==> |r| == |docs| - 1
    ensures multiset(r) <= multiset(docs)
  {
    if docs == [] then []
    else
      assert docs == [docs[0]] + docs[1..];
      if docs[0].alias == alias then docs[1..]
      else [docs[0]] + RemoveFirst(docs[1..], alias)
  }

  /** `RemoveFirst` takes away exactly one record with `alias` and touches no other alias. */
  lemma {:induction false} RemoveFirstCounts(docs: seq<Doc>, alias: string, other: string)
    ensures Count(docs, alias) > 0 ==> Count(RemoveFirst(docs, alias), alias) == Count(docs, alias) - 1
    ensures other != alias ==> Count(RemoveFirst(docs, alias), other) == Count(docs, other)
    decreases |docs|
  {
    if docs != [] && docs[0].alias != alias {
      RemoveFirstCounts(docs[1..], alias, other);
      var r := RemoveFirst(docs, alias);
      assert r[1..] == RemoveFirst(docs[1..], alias);
    }
  }

  /** Uniqueness survives appending a record whose alias is absent. */
  lemma UniqueAppend(docs: seq<Doc>, d: Doc)
    requires Count(docs, d.alias) == 0
    ensures UniqueAliases(docs) ==> UniqueAliases(docs + [d])
  {
    CountZero(docs, d.alias);
    var e := docs + [d];
    if UniqueAliases(docs) {
      forall i, j | 0 <= i < j < |e| ensures e[i].alias != e[j].alias {
        if j < |docs| {
          assert e[i] == docs[i] && e[j] == docs[j];
        } else {
          assert e[i] == docs[i];
        }
      }
    }
  }

  /** In a table with unique aliases, the rest differ from the first record's alias and are unique among themselves. */
  lemma UniqueTail(docs: seq<Doc>)
    requires docs != [] && UniqueAliases(docs)
    ensures UniqueAliases(docs[1..])
    ensures forall d :: d in docs[1..] ==> d.alias != docs[0].alias
  {
    var tail := docs[1..];
    forall i, j | 0 <= i < j < |tail| ensures tail[i].alias != tail[j].alias {
      assert tail[i] == docs[i + 1] && tail[j] == docs[j + 1];
    }
    forall d | d in tail ensures d.alias != docs[0].alias {
      var k :| 0 <= k < |tail| && tail[k] == d;
      assert docs[k + 1] == d;
    }
  }

  /** A record whose alias none of a unique table carries can go in front of it. */
  lemma UniqueCons(d: Doc, rest: seq<Doc>)
    requires UniqueAliases(rest)
    requires forall x :: x in rest ==> x.alias != d.alias
    ensures UniqueAliases([d] + rest)
  {
    var r := [d] + rest;
    forall i, j | 0 <= i < j < |r| ensures r[i].alias != r[j].alias {
      if i == 0 {
        assert r[j] == rest[j - 1];
      } else {
        assert r[i] == rest[i - 1] && r[j] == rest[j - 1];
      }
    }
  }

  /** Uniqueness survives removing records. */
  lemma {:induction false} UniqueRemoveAll(docs: seq<Doc>, alias: string)
    ensures UniqueAliases(docs) ==> UniqueAliases(RemoveAll(docs, alias))
    decreases |docs|
  {
    if docs != [] && UniqueAliases(docs) {
      UniqueTail(docs);
      UniqueRemoveAll(docs[1..], alias);
      if docs[0].alias != alias {
        UniqueCons(docs[0], RemoveAll(docs[1..], alias));
      }
    }
  }

  /** With unique aliases, a record with `alias` is the one `Lookup` finds. */
  lemma UniqueLookup(docs: seq<Doc>, alias: string, url: string)
    requires UniqueAliases(docs)
    requires Doc(alias, url) in docs
    ensures Lookup(docs, alias) == Some(url)
  {
    var k :| 0 <= k < |docs| && docs[k] == Doc(alias, url);
    CountZero(docs, alias);
    var i := Find(docs, alias).value;
    assert i == k;
  }
}

=== FILE: keygen.dfy ===
/**
 The key-gen command's own copy of the base-62 codec. Its loop is written
 here as tail recursion over the digits collected so far, and shown to
 agree with the alias generator's codec on every input.
 */
module KeyGen {
  import opened Shared
  import Base62
  import Counter
  import AliasGen

  /**
   One turn of `for num > 0 { chars = [alphabet[num % 62]] + chars; num /= 62 }`
   and the turns after it; `chars` is what earlier turns produced.
   */
  function Prepend(num: int, chars: string): (r: string)
    decreases if num > 0 then num else 0
    ensures r == Base62.Digits(num) + chars
  {
    if num <= 0 then chars
    else Prepend(num / Base62.Base, [Base62.Alphabet()[num % Base62.Base]] + chars)
  }

  /** `base62Encode(num)`: the same string as the alias generator's encoder, for every input. */
  function Base62Encode(num: int): (r: string)
    ensures r == Base62.Encode(num)
    ensures num >= 0 ==> Base62.Decode(r) == num
    ensures num < 0 ==> r == ""
  {
    if num == 0 then
      Base62.EncodeDecode(0);
      [Base62.Alphabet()[0]]
    else
      if num > 0 then Base62.EncodeDecode(num); Prepend(num, [])
      else Prepend(num, [])
  }

  /**
   One run of the command: increment the shared counter row, then print
   the new value's encoding. None stands for the fatal exit when the
   database is unreachable or the row is missing.
   */
  function GenerateOnce(table: Counter.Table, up: bool): (r: Option<string>)
    ensures r.Some? <==> up && Counter.RowId in table
    ensures r.Some? && table[Counter.RowId] >= -1 ==>
      |r.value| > 0 && Base62.Decode(r.value) == table[Counter.RowId] + 1
  {
    var inc := Counter.IncrementCounter(table, up);
    if inc.failed then None
    else
      if inc.count >= 0 then Base62.EncodeDecode(inc.count); Some(Base62Encode(inc.count))
      else Some(Base62Encode(inc.count))
  }

  /** On the same counter, the command prints the alias the alias generator's handler would answer with. */
  lemma AgreesWithAliasGen(table: Counter.Table, up: bool)
    ensures var once := GenerateOnce(table, up);
      var served := AliasGen.Generate(table, up).response;
      && (once.Some? <==> served.Alias?)
      && (once.Some? ==> once.value == served.alias)
  {
  }
}

=== FILE: mongo.dfy ===
/**
 The mongo store: a collection of `{alias, url}` documents with no index
 on the alias, so nothing stops two documents from sharing one.

 The monolith's mongo store has the same `SaveUrl` and `GetUrl`; it has no
 `DeleteUrl`. Any injected fault other than `NoFault` is a driver error.
 */
module Mongo {
  import opened Shared
  import opened Docs

  /** The error a call returned (None is `nil`) and the collection afterwards. */
  datatype Written = Written(err: Option<StoreError>, docs: seq<Doc>)

  /** `InsertOne`: always a new document; a driver error is wrapped, never `ErrUrlExists`. */
  function SaveUrl(docs: seq<Doc>, url: string, alias: string, fault: Fault): (r: Written)
    ensures r.err == None <==> fault == NoFault
    ensures r.err.Some? ==> r.err == Some(Other) && r.docs == docs
    ensures r.err == None ==> Count(r.docs, alias) == Count(docs, alias) + 1
    ensures r.err == None ==> multiset(r.docs) == multiset(docs) + multiset{Doc(alias, url)}
  {
    if fault != NoFault then Written(Some(Other), docs)
    else
      CountAppend(docs, Doc(alias, url), alias);
      Written(None, docs + [Doc(alias, url)])
  }

  /**
   `FindOne` by alias: `ErrNoDocuments` becomes `ErrUrlNotFound`, any other
   driver error is wrapped. Which of several matching documents comes back is
   the driver's choice; the model takes the first inserted.
   */
  function GetUrl(docs: seq<Doc>, alias: string, fault: Fault): (r: Result<string>)
    ensures r == Fail(NotFound) <==> fault == NoFault && Count(docs, alias) == 0
    ensures r == Fail(Other) <==> fault != NoFault
    ensures fault == NoFault && Count(docs, alias) > 0 ==> r.Ok?
    ensures r.Ok? ==> Doc(alias, r.value) in docs
  {
    if fault != NoFault then Fail(Other)
    else match Lookup(docs, alias)
      case None => Fail(NotFound)
      case Some(url) => Ok(url)
  }

  /** `DeleteOne` by alias: zero deleted is `ErrUrlNotFound`; otherwise exactly one document goes. */
  function DeleteUrl(docs: seq<Doc>, alias: string, fault: Fault): (r: Written)
    ensures r.err == None <==> fault == NoFault && Count(docs, alias) > 0
    ensures r.err == Some(NotFound) <==> fault == NoFault && Count(docs, alias) == 0
    ensures r.err != Some(Exists)
    ensures r.err.Some? ==> r.docs == docs
    ensures r.err == None ==> |r.docs| == |docs| - 1 && multiset(r.docs) <= multiset(docs)
  {
    if fault != NoFault then Written(Some(Other), docs)
    else if Count(docs, alias) == 0 then Written(Some(NotFound), docs)
    else Written(None, RemoveFirst(docs, alias))
  }

  /** A successful delete removes one document with the alias and none with any other alias. */
  lemma DeleteRemovesOne(docs: seq<Doc>, alias: string, other: string)
    requires DeleteUrl(docs, alias, NoFault).err == None
    ensures Count(DeleteUrl(docs, alias, NoFault).docs, alias) == Count(docs, alias) - 1
    ensures other != alias ==> Count(DeleteUrl(docs, alias, NoFault).docs, other) == Count(docs, other)
  {
    RemoveFirstCounts(docs, alias, other);
  }

  /** Saving an alias twice is no conflict: both documents are kept, so one delete still leaves it found. */
  lemma TwoSavesOneDelete(docs: seq<Doc>, alias: string, url1: string, url2: string)
    ensures var c1 := SaveUrl(docs, url1, alias, NoFault);
      var c2 := SaveUrl(c1.docs, url2, alias, NoFault);
      var c3 := DeleteUrl(c2.docs, alias, NoFault);
      && c1.err == None && c2.err == None && c3.err == None
      && GetUrl(c3.docs, alias, NoFault).Ok?
  {
    var c2 := SaveUrl(SaveUrl(docs, url1, alias, NoFault).docs, url2, alias, NoFault);
    RemoveFirstCounts(c2.docs, alias, alias);
  }

  /** A fault-free save makes the alias resolvable, though to the earliest url saved under it. */
  lemma SaveThenGet(docs: seq<Doc>, url: string, alias: string)
    ensures GetUrl(SaveUrl(docs, url, alias, NoFault).docs, alias, NoFault).Ok?
    ensures Count(docs, alias) == 0 ==> GetUrl(SaveUrl(docs, url, alias, NoFault).docs, alias, NoFault) == Ok(url)
  {
    LookupAppend(docs, Doc(alias, url), alias);
  }

  /** Saving a taken alias succeeds, and afterwards the earlier url is still the one found. */
  lemma DuplicateKeepsFirst(docs: seq<Doc>, url1: string, url2: string, alias: string)
    requires Count(docs, alias) == 0
    ensures var d1 := SaveUrl(docs, url1, alias, NoFault).docs;
      && SaveUrl(d1, url2, alias, NoFault).err == None
      && GetUrl(SaveUrl(d1, url2, alias, NoFault).docs, alias, NoFault) == Ok(url1)
  {
    var d1 := docs + [Doc(alias, url1)];
    LookupAppend(docs, Doc(alias, url1), alias);
    LookupAppend(d1, Doc(alias, url2), alias);
  }
}

=== FILE: monolith.dfy ===
/**
 The single-binary shortener's save, redirect and delete handlers. They
 talk to the persistent store only: there is no cache, no alias service
 and no analytics. An empty alias is replaced by a random six-character
 string, which arrives here as a parameter.
 */
module Monolith {
  import opened Shared
  import opened Docs
  import Backend
  import Redis
  import Service

  /** `aliasLength`: the length of a random alias. */
  const AliasLength: nat := 6

  datatype Step = Step(outcome: Outcome, store: Backend.Store, calls: seq<Call>)

  /**
   `save.New`. `body` is None when the JSON does not decode, `invalid` is the
   validator's message, `random` is what `random.NewRandomString(aliasLength)`
   would return.
   */
  function SaveHandler(store: Backend.Store, body: Option<Request>, invalid: Option<string>,
                       random: string, fault: Fault): (r: Step)
    requires |random| == AliasLength
    ensures r.outcome.OkAlias? ==>
      && body.Some? && invalid.None?
      && r.outcome.alias == (if body.value.alias == "" then random else body.value.alias)
      && |r.outcome.alias| > 0
      && r.calls == [StoreSave(body.value.url, r.outcome.alias)]
    ensures body.None? || invalid.Some? ==> r.store == store && r.calls == [] && r.outcome.Err?
    ensures body.None? ==> r.outcome == Err("failed to decode request")
    ensures body.Some? && invalid.Some? ==> r.outcome == Err(invalid.value)
    ensures r.outcome.OkAlias? || r.outcome.Err?
    ensures r.store.kind == store.kind
    ensures Backend.Valid(store) ==> Backend.Valid(r.store)
  {
    if body.None? then Step(Err("failed to decode request"), store, [])
    else if invalid.Some? then Step(Err(invalid.value), store, [])
    else
      var req := body.value;
      var alias := if req.alias == "" then random else req.alias;
      var saved := Backend.SaveUrl(store, req.url, alias, fault);
      var calls := [StoreSave(req.url, alias)];
      if saved.err == Some(Exists) then Step(Err("url already exists"), saved.store, calls)
      else if saved.err.Some? then Step(Err("failed to add url"), saved.store, calls)
      else Step(OkAlias(alias), saved.store, calls)
  }

  /** `redirect.New`: an empty path alias is rejected before the store is asked. */
  function RedirectHandler(store: Backend.Store, alias: string, fault: Fault): (r: Step)
    ensures r.store == store
    ensures alias == "" <==> r.calls == []
    ensures alias == "" ==> r.outcome == Err("invalid request")
    ensures alias != "" ==> r.calls == [StoreGet(alias)]
    ensures r.outcome.Redirect? ==> Doc(alias, r.outcome.url) in store.docs
    ensures r.outcome.Redirect? || r.outcome.Err?
  {
    if alias == "" then Step(Err("invalid request"), store, [])
    else
      var got := Backend.GetUrl(store, alias, fault);
      if got == Fail(NotFound) then Step(Err("not found"), store, [StoreGet(alias)])
      else if got.Fail? then Step(Err("internal error"), store, [StoreGet(alias)])
      else Step(Redirect(got.value), store, [StoreGet(alias)])
  }

  /** `delete.New`: an empty path alias is rejected; otherwise the store's answer is reported. */
  function DeleteHandler(store: Backend.Store, alias: string, fault: Fault): (r: Step)
    ensures alias == "" <==> r.calls == []
    ensures alias == "" ==> r == Step(Err("invalid request"), store, [])
    ensures alias != "" ==> r.calls == [StoreDelete(alias)]
    ensures r.outcome == OkStatus && store.kind == Backend.SqliteStore ==> Count(r.store.docs, alias) == 0
    ensures r.outcome == OkStatus ==> Count(store.docs, alias) > 0 && fault == NoFault
    ensures r.outcome == Err("alias not found") ==> r.store == store
    ensures r.outcome == OkStatus || r.outcome.Err?
    ensures r.store.kind == store.kind
    ensures Backend.Valid(store) ==> Backend.Valid(r.store)
  {
    if alias == "" then Step(Err("invalid request"), store, [])
    else
      var deleted := Backend.DeleteUrl(store, alias, fault);
      if deleted.err == Some(NotFound) then Step(Err("alias not found"), deleted.store, [StoreDelete(alias)])
      else if deleted.err.Some? then Step(Err("failed to delete url"), deleted.store, [StoreDelete(alias)])
      else Step(OkStatus, deleted.store, [StoreDelete(alias)])
  }

  /** The store's answer decides the save: conflict, other failure, or success with the alias. */
  lemma SaveClassifiesStoreErrors(store: Backend.Store, req: Request, random: string, fault: Fault)
    requires |random| == AliasLength
    ensures var alias := if req.alias == "" then random else req.alias;
      var err := Backend.SaveUrl(store, req.url, alias, fault).err;
      var r := SaveHandler(store, Some(req), None, random, fault);
      && (err == Some(Exists) <==> r.outcome == Err("url already exists"))
      && (err.Some? && err != Some(Exists) <==> r.outcome == Err("failed to add url"))
      && (err.None? <==> r.outcome == OkAlias(alias))
  {
  }

  /** A generated alias is exactly six characters long. */
  lemma RandomAliasLength(store: Backend.Store, url: string, random: string, fault: Fault)
    requires |random| == AliasLength
    ensures var r := SaveHandler(store, Some(Request(url, "")), None, random, fault);
      r.outcome.OkAlias? ==> |r.outcome.alias| == AliasLength
  {
  }

  /** The store's answer decides the redirect, for every non-empty alias. */
  lemma RedirectClassifies(store: Backend.Store, alias: string, fault: Fault)
    requires alias != ""
    ensures var got := Backend.GetUrl(store, alias, fault);
      var r := RedirectHandler(store, alias, fault);
      && (got == Fail(NotFound) <==> r.outcome == Err("not found"))
      && (got.Fail? && got != Fail(NotFound) <==> r.outcome == Err("internal error"))
      && (got.Ok? <==> r.outcome.Redirect?)
      && (got.Ok? ==> r.outcome.url == got.value)
  {
  }

  /** The store's answer decides the delete, for every non-empty alias. */
  lemma DeleteClassifies(store: Backend.Store, alias: string, fault: Fault)
    requires alias != ""
    ensures var err := Backend.DeleteUrl(store, alias, fault).err;
      var r := DeleteHandler(store, alias, fault);
      && (err == Some(NotFound) <==> r.outcome == Err("alias not found"))
      && (err.Some? && err != Some(NotFound) <==> r.outcome == Err("failed to delete url"))
      && (err.None? <==> r.outcome == OkStatus)
  {
  }

  /**
   With a healthy store: save with an empty alias, follow the random alias,
   delete it, then find that a second delete and a redirect both miss.
   */
  lemma {:induction false} SaveRedirectDelete(store: Backend.Store, url: string, random: string)
    requires store.kind == Backend.SqliteStore && Backend.Valid(store)
    requires |random| == AliasLength
    requires Count(store.docs, random) == 0
    ensures var saved := SaveHandler(store, Some(Request(url, "")), None, random, NoFault);
      var followed := RedirectHandler(saved.store, random, NoFault);
      var deleted := DeleteHandler(saved.store, random, NoFault);
      var again := DeleteHandler(deleted.store, random, NoFault);
      var missed := RedirectHandler(deleted.store, random, NoFault);
      && saved.outcome == OkAlias(random)
      && followed.outcome == Redirect(url)
      && deleted.outcome == OkStatus
      && again.outcome == Err("alias not found")
      && missed.outcome == Err("not found")
  {
    var saved := SaveHandler(store, Some(Request(url, "")), None, random, NoFault);
    assert saved.store.docs == store.docs + [Doc(random, url)];
    LookupAppend(store.docs, Doc(random, url), random);
    CountAppend(store.docs, Doc(random, url), random);
    var deleted := DeleteHandler(saved.store, random, NoFault);
    assert Count(deleted.store.docs, random) == 0;
  }

  /** On a healthy sqlite store the delete answer is the same the second time: the first success is final. */
  lemma DeleteTwice(store: Backend.Store, alias: string)
    requires store.kind == Backend.SqliteStore && alias != ""
    ensures var first := DeleteHandler(store, alias, NoFault);
      DeleteHandler(first.store, alias, NoFault).outcome == Err("alias not found")
  {
  }

  /**
   The monolith's save does on the store what the main service's save does
   when the alias service hands back the same random string: same response,
   same records.
   */
  lemma SaveAgreesWithService(store: Backend.Store, req: Request, random: string, fault: Fault, cache: Redis.Cache, cacheUp: bool)
    requires |random| == AliasLength
    ensures var mono := SaveHandler(store, Some(req), None, random, fault);
      var svc := Service.SaveHandler(Service.State(store, cache), Some(req), None, Ok(random), fault, cacheUp);
      mono.outcome == svc.outcome && mono.store == svc.state.store
  {
  }

  /**
   With nothing cached, the main service redirects exactly when the monolith
   does, to the same url; its misses read "url not found" where the monolith's
   read "not found".
   */
  lemma RedirectAgreesWithService(store: Backend.Store, alias: string, cacheUp: bool, fault: Fault, trackOk: bool)
    requires alias != ""
    ensures var mono := RedirectHandler(store, alias, fault);
      var svc := Service.RedirectHandler(Service.State(store, map[]), alias, cacheUp, fault, trackOk);
      && (mono.outcome.Redirect? <==> svc.outcome.Redirect?)
      && (mono.outcome.Redirect? ==> mono.outcome == svc.outcome)
      && (mono.outcome == Err("not found") <==> svc.outcome == Err("url not found"))
      && (mono.outcome == Err("internal error") <==> svc.outcome == Err("internal error"))
  {
  }
}

=== FILE: redis.dfy ===
/**
 The redis cache: alias keys mapped to url values, every write carrying the
 fixed 24-hour expiry. Expiry itself is not modelled: an entry stays until
 deleted. Every failure, including a missing key, is a generic error.
 */
module Redis {
  import opened Shared

  /** `urlTTL = 24 * time.Hour`, in seconds. */
  const UrlTtlSeconds: int := 24 * 60 * 60

  datatype Entry = Entry(url: string, ttlSeconds: int)

  type Cache = map<string, Entry>

  /** Every entry was written with the fixed expiry. */
  predicate FixedTtl(cache: Cache)
  {
    forall alias :: alias in cache ==> cache[alias].ttlSeconds == UrlTtlSeconds
  }

  /** The error a call returned (None is `nil`) and the cache afterwards. */
  datatype Cached = Cached(err: Option<StoreError>, cache: Cache)

  /** `SET alias url EX 24h`: overwrites any previous value. */
  function SaveUrl(cache: Cache, url: string, alias: string, up: bool): (r: Cached)
    ensures up <==> r.err == None
    ensures r.err.Some? ==> r.cache == cache
    ensures up ==> alias in r.cache && r.cache[alias] == Entry(url, UrlTtlSeconds)
    ensures forall a :: a != alias ==> (a in r.cache <==> a in cache)
    ensures forall a :: a != alias && a in cache ==> r.cache[a] == cache[a]
    ensures FixedTtl(cache) ==> FixedTtl(r.cache)
  {
    if up then Cached(None, cache[alias := Entry(url, UrlTtlSeconds)]) else Cached(Some(Other), cache)
  }

  /** `GET alias`: a missing key is an error (`redis.Nil`), never an empty-string success. */
  function GetUrl(cache: Cache, alias: string, up: bool): (r: Result<string>)
    ensures r.Ok? <==> up && alias in cache
    ensures r.Ok? ==> r.value == cache[alias].url
    ensures r.Fail? ==> r.error == Other
  {
    if up && alias in cache then Ok(cache[alias].url) else Fail(Other)
  }

  /** `DEL alias`: succeeds whether or not the key was there. */
  function DeleteUrl(cache: Cache, alias: string, up: bool): (r: Cached)
    ensures up <==> r.err == None
    ensures r.err.Some? ==> r.cache == cache
    ensures up ==> alias !in r.cache
    ensures forall a :: a != alias ==> (a in r.cache <==> a in cache)
    ensures forall a :: a != alias && a in cache ==> r.cache[a] == cache[a]
  {
    if up then Cached(None, cache - {alias}) else Cached(Some(Other), cache)
  }

  /** A value written is read back until it is deleted. */
  lemma SaveThenGet(cache: Cache, url: string, alias: string)
    ensures GetUrl(SaveUrl(cache, url, alias, true).cache, alias, true) == Ok(url)
  {
  }

  /** Deleting twice is as good as deleting once, and both report success. */
  lemma DeleteIdempotent(cache: Cache, alias: string)
    ensures var c1 := DeleteUrl(cache, alias, true).cache;
      DeleteUrl(c1, alias, true) == Cached(None, c1)
  {
  }
}

=== FILE: service.dfy ===
/**
 The main service's save and redirect handlers: the persistent store is
 authoritative, the redis cache is written and read best-effort, the alias
 generator is a remote call, and analytics is a fire-and-forget sink.

 Each handler is a transition from the state and the results the outside
 world hands back (decoding, validation, the generator, faults in store
 and cache, the analytics reply) to the response, the new state and the
 calls made, in order.
 */
module Service {
  import opened Shared
  import opened Docs
  import Backend
  import Redis
  import Sqlite
  import Counter
  import AliasGen
  import Base62

  datatype State = State(store: Backend.Store, cache: Redis.Cache)

  datatype Step = Step(outcome: Outcome, state: State, calls: seq<Call>)

  /** The alias a save will store: the request's own, or the generator's when it is empty. */
  function ChosenAlias(req: Request, gen: Result<string>): string
    requires req.alias == "" ==> gen.Ok?
  {
    if req.alias == "" then gen.value else req.alias
  }

  /**
   `save.New`. `body` is None when the JSON does not decode; `invalid` is the
   validator's message when the request is rejected; `gen` is what the alias
   generator returned, consulted only for an empty alias.
   */
  function SaveHandler(s: State, body: Option<Request>, invalid: Option<string>, gen: Result<string>,
                       storeFault: Fault, cacheUp: bool): (r: Step)
    ensures (Generate in r.calls) <==> body.Some? && invalid.None? && body.value.alias == ""
    ensures r.outcome.OkAlias? ==>
      && body.Some? && (body.value.alias == "" ==> gen.Ok?)
      && r.outcome.alias == ChosenAlias(body.value, gen)
      && StoreSave(body.value.url, r.outcome.alias) in r.calls
      && r.calls[|r.calls| - 1] == CacheSave(body.value.url, r.outcome.alias)
    ensures !r.outcome.OkAlias? ==> r.state == s
    ensures !r.outcome.OkAlias? ==> forall i :: 0 <= i < |r.calls| ==> !r.calls[i].CacheSave?
    ensures r.state.store.kind == s.store.kind
    ensures Backend.Valid(s.store) ==> Backend.Valid(r.state.store)
  {
    if body.None? then Step(Err("failed to decode request"), s, [])
    else if invalid.Some? then Step(Err(invalid.value), s, [])
    else
      var req := body.value;
      if req.alias == "" && gen.Fail? then Step(Err("failed to get alias"), s, [Generate])
      else
        var alias := ChosenAlias(req, gen);
        var asked := if req.alias == "" then [Generate] else [];
        var calls := asked + [StoreSave(req.url, alias)];
        var saved := Backend.SaveUrl(s.store, req.url, alias, storeFault);
        if saved.err == Some(Exists) then Step(Err("url already exists"), State(saved.store, s.cache), calls)
        else if saved.err.Some? then Step(Err("failed to add url"), State(saved.store, s.cache), calls)
        else
          var cached := Redis.SaveUrl(s.cache, req.url, alias, cacheUp);
          Step(OkAlias(alias), State(saved.store, cached.cache), calls + [CacheSave(req.url, alias)])
  }

  /**
   `redirect.New`: the cache first, any cache error counting as a miss; then
   the store. A resolved url sends one click event and redirects whatever
   the tracker answers. Nothing is ever written, the cache included.
   */
  function RedirectHandler(s: State, alias: string, cacheUp: bool, storeFault: Fault, trackOk: bool): (r: Step)
    ensures r.state == s
    ensures |r.calls| >= 2 && r.calls[0] == CacheGet(alias)
    ensures (StoreGet(alias) in r.calls) <==> Redis.GetUrl(s.cache, alias, cacheUp).Fail?
    ensures r.outcome.Redirect? <==> r.calls[|r.calls| - 1] == Track(alias)
    ensures forall i :: 0 <= i < |r.calls| - 1 ==> !r.calls[i].Track?
    ensures r.outcome.Redirect? || r.outcome.Err?
  {
    var hit := Redis.GetUrl(s.cache, alias, cacheUp);
    if hit.Ok? then Step(Redirect(hit.value), s, [CacheGet(alias), Track(alias)])
    else
      var got := Backend.GetUrl(s.store, alias, storeFault);
      if got == Fail(NotFound) then Step(Err("url not found"), s, [CacheGet(alias), StoreGet(alias)])
      else if got.Fail? then Step(Err("internal error"), s, [CacheGet(alias), StoreGet(alias)])
      else Step(Redirect(got.value), s, [CacheGet(alias), StoreGet(alias), Track(alias)])
  }

  /** Every cache entry names the url the store would return for its alias. */
  predicate Coherent(s: State)
  {
    forall a :: a in s.cache ==> Backend.GetUrl(s.store, a, NoFault) == Ok(s.cache[a].url)
  }

  /** Whether the cache write succeeds never changes the save's response or the stored records. */
  lemma SaveCacheInvisible(s: State, body: Option<Request>, invalid: Option<string>, gen: Result<string>, storeFault: Fault)
    ensures var up := SaveHandler(s, body, invalid, gen, storeFault, true);
      var down := SaveHandler(s, body, invalid, gen, storeFault, false);
      up.outcome == down.outcome && up.state.store == down.state.store && up.calls == down.calls
  {
  }

  /** The store's answer decides the save: conflict, other failure, or success. */
  lemma SaveClassifiesStoreErrors(s: State, req: Request, gen: Result<string>, storeFault: Fault, cacheUp: bool)
    requires req.alias == "" ==> gen.Ok?
    ensures var err := Backend.SaveUrl(s.store, req.url, ChosenAlias(req, gen), storeFault).err;
      var r := SaveHandler(s, Some(req), None, gen, storeFault, cacheUp);
      && (err == Some(Exists) ==> r.outcome == Err("url already exists"))
      && (err.Some? && err != Some(Exists) ==> r.outcome == Err("failed to add url"))
      && (err.None? ==> r.outcome == OkAlias(ChosenAlias(req, gen)))
  {
  }

  /** A failed decode, a failed validation or a failed generator call touches neither store nor cache. */
  lemma SaveEarlyExit(s: State, body: Option<Request>, invalid: Option<string>, gen: Result<string>,
                      storeFault: Fault, cacheUp: bool)
    requires body.None? || invalid.Some? || (body.value.alias == "" && gen.Fail?)
    ensures var r := SaveHandler(s, body, invalid, gen, storeFault, cacheUp);
      && r.state == s
      && (forall c :: c in r.calls ==> c == Generate)
      && (body.None? ==> r.outcome == Err("failed to decode request"))
      && (body.Some? && invalid.Some? ==> r.outcome == Err(invalid.value))
      && (body.Some? && invalid.None? ==> r.outcome == Err("failed to get alias"))
  {
  }

  /**
   When the generator's reply is what the alias generator's handler answers
   over a counter that never went negative, a save without an alias either
   reports the generator failure or answers with a non-empty alias that
   decodes to the incremented counter.
   */
  lemma GeneratedAliasNonEmpty(s: State, url: string, table: Counter.Table, up: bool, storeFault: Fault, cacheUp: bool)
    requires Counter.RowId in table ==> table[Counter.RowId] >= 0
    ensures var reply := AliasGen.Generate(table, up).response;
      var gen := if reply.Alias? then Ok(reply.alias) else Fail(Other);
      var r := SaveHandler(s, Some(Request(url, "")), None, gen, storeFault, cacheUp);
      && (reply.Error? ==> r.outcome == Err("failed to get alias"))
      && (r.outcome.OkAlias? ==>
            (Counter.RowId in table && |r.outcome.alias| > 0
             && Base62.Decode(r.outcome.alias) == table[Counter.RowId] + 1))
  {
  }

  /** After a successful sqlite insert with a working exec, the new alias resolves to its url and every other alias as before. */
  lemma SqliteSaveLookups(store: Backend.Store, url: string, alias: string, fault: Fault, a: string)
    requires store.kind == Backend.SqliteStore
    requires fault != ExecFails
    requires Backend.SaveUrl(store, url, alias, fault).err == None
    ensures Backend.GetUrl(Backend.SaveUrl(store, url, alias, fault).store, a, NoFault)
      == if a == alias then Ok(url) else Backend.GetUrl(store, a, NoFault)
  {
    var w := Sqlite.SaveUrl(store.docs, url, alias, fault);
    if a != alias {
      LookupAppend(store.docs, Doc(alias, url), a);
    }
  }

  /** A save that answers OK has stored the record and then written the cache, and nothing else. */
  lemma SaveSucceeded(s: State, req: Request, gen: Result<string>, storeFault: Fault, cacheUp: bool)
    requires SaveHandler(s, Some(req), None, gen, storeFault, cacheUp).outcome.OkAlias?
    ensures req.alias == "" ==> gen.Ok?
    ensures var alias := ChosenAlias(req, gen);
      var saved := Backend.SaveUrl(s.store, req.url, alias, storeFault);
      && saved.err == None
      && SaveHandler(s, Some(req), None, gen, storeFault, cacheUp).state
         == State(saved.store, Redis.SaveUrl(s.cache, req.url, alias, cacheUp).cache)
  {
  }

  /** A successful sqlite insert followed by a cache write of the same pair keeps a coherent cache coherent. */
  lemma CoherentAfterSave(s: State, url: string, alias: string, storeFault: Fault, cacheUp: bool)
    requires s.store.kind == Backend.SqliteStore
    requires Coherent(s)
    requires storeFault != ExecFails
    requires Backend.SaveUrl(s.store, url, alias, storeFault).err == None
    ensures Coherent(State(Backend.SaveUrl(s.store, url, alias, storeFault).store, Redis.SaveUrl(s.cache, url, alias, cacheUp).cache))
  {
    var store := Backend.SaveUrl(s.store, url, alias, storeFault).store;
    var cache := Redis.SaveUrl(s.cache, url, alias, cacheUp).cache;
    forall a | a in cache
      ensures Backend.GetUrl(store, a, NoFault) == Ok(cache[a].url)
    {
      SqliteSaveLookups(s.store, url, alias, storeFault, a);
    }
  }

  /** On the sqlite store, a save that succeeds with a working exec keeps the cache coherent. */
  lemma SavePreservesCoherence(s: State, req: Request, gen: Result<string>, storeFault: Fault, cacheUp: bool)
    requires s.store.kind == Backend.SqliteStore
    requires Coherent(s)
    requires storeFault != ExecFails
    ensures Coherent(SaveHandler(s, Some(req), None, gen, storeFault, cacheUp).state)
  {
    var r := SaveHandler(s, Some(req), None, gen, storeFault, cacheUp);
    if r.outcome.OkAlias? {
      SaveSucceeded(s, req, gen, storeFault, cacheUp);
      CoherentAfterSave(s, req.url, ChosenAlias(req, gen), storeFault, cacheUp);
    } else {
      assert r.state == s;
    }
  }

  /**
   On the sqlite store an exec failure that is not a uniqueness violation is
   swallowed: the save answers OK with the alias although nothing was stored.
   */
  lemma SwallowedExecFailure(s: State, req: Request)
    requires s.store.kind == Backend.SqliteStore
    requires req.alias != ""
    ensures var r := SaveHandler(s, Some(req), None, Fail(Other), ExecFails, true);
      && r.outcome == OkAlias(req.alias)
      && r.state.store == s.store
      && r.state.cache[req.alias].url == req.url
  {
  }

  /** On the sqlite store a healthy save of a fresh named alias answers OK, appending the record and caching it. */
  lemma SqliteSaveOk(s: State, req: Request, gen: Result<string>, cacheUp: bool)
    requires s.store.kind == Backend.SqliteStore && req.alias != ""
    requires Count(s.store.docs, req.alias) == 0
    ensures SaveHandler(s, Some(req), None, gen, NoFault, cacheUp)
      == Step(OkAlias(req.alias),
              State(Backend.Store(Backend.SqliteStore, s.store.docs + [Doc(req.alias, req.url)]),
                    Redis.SaveUrl(s.cache, req.url, req.alias, cacheUp).cache),
              [StoreSave(req.url, req.alias), CacheSave(req.url, req.alias)])
  {
  }

  /** On the mongo store a healthy save of a named alias always answers OK, appending the record and caching it. */
  lemma MongoSaveOk(s: State, req: Request, gen: Result<string>, cacheUp: bool)
    requires s.store.kind == Backend.MongoStore && req.alias != ""
    ensures SaveHandler(s, Some(req), None, gen, NoFault, cacheUp)
      == Step(OkAlias(req.alias),
              State(Backend.Store(Backend.MongoStore, s.store.docs + [Doc(req.alias, req.url)]),
                    Redis.SaveUrl(s.cache, req.url, req.alias, cacheUp).cache),
              [StoreSave(req.url, req.alias), CacheSave(req.url, req.alias)])
  {
  }

  /**
   On the mongo store a second save of a fresh alias with another url answers
   OK, and the cache then names the second url while the store returns the first.
   */
  lemma MongoDuplicateBreaksCoherence(s: State, alias: string, url1: string, url2: string)
    requires s.store.kind == Backend.MongoStore
    requires alias != "" && url1 != url2
    requires Count(s.store.docs, alias) == 0
    ensures var s1 := SaveHandler(s, Some(Request(url1, alias)), None, Fail(Other), NoFault, true);
      var s2 := SaveHandler(s1.state, Some(Request(url2, alias)), None, Fail(Other), NoFault, true);
      s1.outcome == OkAlias(alias) && s2.outcome == OkAlias(alias) && !Coherent(s2.state)
  {
    var d1 := s.store.docs + [Doc(alias, url1)];
    var d2 := d1 + [Doc(alias, url2)];
    MongoSaveOk(s, Request(url1, alias), Fail(Other), true);
    var t1 := SaveHandler(s, Some(Request(url1, alias)), None, Fail(Other), NoFault, true).state;
    assert t1.store.docs == d1;
    MongoSaveOk(t1, Request(url2, alias), Fail(Other), true);
    var t2 := SaveHandler(t1, Some(Request(url2, alias)), None, Fail(Other), NoFault, true).state;
    assert t2.store.docs == d2;
    assert t2.cache[alias].url == url2;
    CountZero(s.store.docs, alias);
    LookupAppend(s.store.docs, Doc(alias, url1), alias);
    LookupAppend(d1, Doc(alias, url2), alias);
    assert Backend.GetUrl(t2.store, alias, NoFault) == Ok(url1);
  }

  /** A cache hit is served without the store, even if the store no longer holds the alias. */
  lemma RedirectCacheHit(s: State, alias: string, storeFault: Fault, trackOk: bool)
    requires alias in s.cache
    ensures var r := RedirectHandler(s, alias, true, storeFault, trackOk);
      r.outcome == Redirect(s.cache[alias].url) && StoreGet(alias) !in r.calls
  {
  }

  /** A cache miss or error falls back to the store, which alone decides the response. */
  lemma RedirectFallback(s: State, alias: string, cacheUp: bool, storeFault: Fault, trackOk: bool)
    requires Redis.GetUrl(s.cache, alias, cacheUp).Fail?
    ensures var r := RedirectHandler(s, alias, cacheUp, storeFault, trackOk);
      var got := Backend.GetUrl(s.store, alias, storeFault);
      && (got == Fail(NotFound) ==> r.outcome == Err("url not found"))
      && (got.Fail? && got != Fail(NotFound) ==> r.outcome == Err("internal error"))
      && (got.Ok? ==> r.outcome == Redirect(got.value))
  {
  }

  /** The analytics reply never changes the response. */
  lemma RedirectTrackInvisible(s: State, alias: string, cacheUp: bool, storeFault: Fault)
    ensures RedirectHandler(s, alias, cacheUp, storeFault, true) == RedirectHandler(s, alias, cacheUp, storeFault, false)
  {
  }

  /** With a coherent cache and a healthy store, an unreachable cache changes no response. */
  lemma RedirectCacheInvisible(s: State, alias: string, trackOk: bool)
    requires Coherent(s)
    ensures RedirectHandler(s, alias, true, NoFault, trackOk).outcome == RedirectHandler(s, alias, false, NoFault, trackOk).outcome
  {
  }

  /** A url saved on the sqlite store redirects afterwards, whether or not either cache call worked. */
  lemma SaveThenRedirect(s: State, req: Request, gen: Result<string>, saveCacheUp: bool, getCacheUp: bool, trackOk: bool)
    requires s.store.kind == Backend.SqliteStore && Backend.Valid(s.store) && Coherent(s)
    requires SaveHandler(s, Some(req), None, gen, NoFault, saveCacheUp).outcome.OkAlias?
    ensures var saved := SaveHandler(s, Some(req), None, gen, NoFault, saveCacheUp);
      RedirectHandler(saved.state, saved.outcome.alias, getCacheUp, NoFault, trackOk).outcome == Redirect(req.url)
  {
    var saved := SaveHandler(s, Some(req), None, gen, NoFault, saveCacheUp);
    var alias := saved.outcome.alias;
    SavePreservesCoherence(s, req, gen, NoFault, saveCacheUp);
    var w := Backend.SaveUrl(s.store, req.url, alias, NoFault);
    assert w.err == None;
    assert Backend.GetUrl(saved.state.store, alias, NoFault) == Ok(req.url);
  }
}

=== FILE: shared.dfy ===
/**
 Types shared by the stores, the cache and the request handlers.

 Go functions return `(value, error)`; here a call that yields a value
 returns a `Result`, and one that yields only an error returns an
 `Option<StoreError>` (None is Go's `nil`).
 */
module Shared {

  datatype Option<T> = None | Some(value: T)

  /**
   What `errors.Is` can tell about a store error: the `ErrUrlNotFound`
   sentinel, the `ErrUrlExists` sentinel (possibly wrapped), or any other
   driver, connection or statement failure.
   */
  datatype StoreError = NotFound | Exists | Other

  datatype Result<T> = Ok(value: T) | Fail(error: StoreError)

  /** One stored record: a row of the sqlite `url` table or a mongo document. */
  datatype Doc = Doc(alias: string, url: string)

  /**
   A failure injected into one store call. For sqlite, which step of the
   statement fails; for mongo, any value other than `NoFault` is a driver error.
   */
  datatype Fault = NoFault | PrepareFails | ExecFails | RowsAffectedFails

  /** What a handler answers: a 302 redirect, an OK with or without alias, or an error message. */
  datatype Outcome = Redirect(url: string) | OkAlias(alias: string) | OkStatus | Err(msg: string)

  /** A call a handler makes to one of its collaborators, in the order made. */
  datatype Call =
    | Generate
    | StoreSave(url: string, alias: string)
    | StoreGet(alias: string)
    | StoreDelete(alias: string)
    | CacheSave(url: string, alias: string)
    | CacheGet(alias: string)
    | Track(alias: string)

  /** A decoded save request; an empty alias asks for a generated one. */
  datatype Request = Request(url: string, alias: string)
}

=== FILE: sqlite.dfy ===
/**
 The sqlite store: the `url` table with a `UNIQUE` alias column.

 The monolith's sqlite store has the same `SaveUrl` and `GetUrl` (it only
 omits closing the prepared statement), so one model serves both; the
 monolith has no `DeleteUrl`.
 */
module Sqlite {
  import opened Shared
  import opened Docs

  /** The error a call returned (None is `nil`) and the table afterwards. */
  datatype Written = Written(err: Option<StoreError>, docs: seq<Doc>)

  /** A fault in a step other than prepare or exec plays no part in `SaveUrl` and `GetUrl`. */
  predicate StatementFails(fault: Fault)
  {
    fault == PrepareFails || fault == ExecFails
  }

  /**
   `INSERT INTO url(url, alias)`. A uniqueness violation becomes `ErrUrlExists`;
   a prepare failure is returned; any other exec failure is swallowed and
   `nil` is returned with nothing inserted.
   */
  function SaveUrl(table: seq<Doc>, url: string, alias: string, fault: Fault): (r: Written)
    ensures r.err == Some(Other) <==> fault == PrepareFails
    ensures r.err == Some(Exists) <==> !StatementFails(fault) && Count(table, alias) > 0
    ensures r.err != Some(NotFound)
    ensures r.docs != table ==> r.err == None && Count(table, alias) == 0 && r.docs == table + [Doc(alias, url)]
    ensures r.err == None && fault != ExecFails ==> Lookup(r.docs, alias) == Some(url)
    ensures fault == ExecFails ==> r == Written(None, table)
    ensures UniqueAliases(table) ==> UniqueAliases(r.docs)
  {
    if fault == PrepareFails then Written(Some(Other), table)
    else if fault == ExecFails then Written(None, table)
    else if Count(table, alias) > 0 then Written(Some(Exists), table)
    else
      LookupAppend(table, Doc(alias, url), alias);
      CountZero(table, alias);
      UniqueAppend(table, Doc(alias, url));
      Written(None, table + [Doc(alias, url)])
  }

  /** `SELECT url FROM url WHERE alias = ?`: no row is `ErrUrlNotFound`, any other failure is wrapped. */
  function GetUrl(table: seq<Doc>, alias: string, fault: Fault): (r: Result<string>)
    ensures r == Fail(NotFound) <==> !StatementFails(fault) && Count(table, alias) == 0
    ensures r == Fail(Other) <==> StatementFails(fault)
    ensures !StatementFails(fault) && Count(table, alias) > 0 ==> r.Ok?
    ensures r.Ok? ==> Doc(alias, r.value) in table
  {
    if StatementFails(fault) then Fail(Other)
    else match Lookup(table, alias)
      case None => Fail(NotFound)
      case Some(url) => Ok(url)
  }

  /**
   `DELETE FROM url WHERE alias = ?`. Zero rows affected is `ErrUrlNotFound`.
   If only reading the affected-row count fails, the rows are already gone
   but an error is returned.
   */
  function DeleteUrl(table: seq<Doc>, alias: string, fault: Fault): (r: Written)
    ensures r.err == None <==> fault == NoFault && Count(table, alias) > 0
    ensures r.err == Some(NotFound) <==> fault == NoFault && Count(table, alias) == 0
    ensures r.err != Some(Exists)
    ensures r.docs == table || r.docs == RemoveAll(table, alias)
    ensures StatementFails(fault) ==> r == Written(Some(Other), table)
    ensures fault == RowsAffectedFails ==> r == Written(Some(Other), RemoveAll(table, alias))
    ensures r.err == None ==> Count(r.docs, alias) == 0 && |r.docs| == |table| - Count(table, alias)
    ensures UniqueAliases(table) ==> UniqueAliases(r.docs)
  {
    UniqueRemoveAll(table, alias);
    if StatementFails(fault) then Written(Some(Other), table)
    else
      var rows := RemoveAll(table, alias);
      var affected := |table| - |rows|;
      if fault == RowsAffectedFails then Written(Some(Other), rows)
      else if affected == 0 then Written(Some(NotFound), table)
      else
        CountZero(rows, alias);
        Written(None, rows)
  }

  /** A fresh alias saved without faults is found again with its url. */
  lemma SaveThenGet(table: seq<Doc>, url: string, alias: string)
    requires Count(table, alias) == 0
    ensures SaveUrl(table, url, alias, NoFault).err == None
    ensures GetUrl(SaveUrl(table, url, alias, NoFault).docs, alias, NoFault) == Ok(url)
  {
  }

  /** Saving a taken alias again is a conflict and the first url stays. */
  lemma SaveTwice(table: seq<Doc>, url1: string, url2: string, alias: string)
    requires Count(table, alias) == 0
    ensures var t1 := SaveUrl(table, url1, alias, NoFault).docs;
      && SaveUrl(t1, url2, alias, NoFault) == Written(Some(Exists), t1)
      && GetUrl(t1, alias, NoFault) == Ok(url1)
  {
    CountAppend(table, Doc(alias, url1), alias);
  }

  /** Deleting a saved alias succeeds once; afterwards it is not found and a second delete fails. */
  lemma DeleteThenGet(table: seq<Doc>, alias: string)
    requires DeleteUrl(table, alias, NoFault).err == None
    ensures var t1 := DeleteUrl(table, alias, NoFault).docs;
      && GetUrl(t1, alias, NoFault) == Fail(NotFound)
      && DeleteUrl(t1, alias, NoFault) == Written(Some(NotFound), t1)
  {
  }

  /** A deleted alias can be saved again: the store permits reuse after deletion. */
  lemma ResaveAfterDelete(table: seq<Doc>, alias: string, url: string)
    requires DeleteUrl(table, alias, NoFault).err == None
    ensures var t1 := DeleteUrl(table, alias, NoFault).docs;
      && SaveUrl(t1, url, alias, NoFault).err == None
      && GetUrl(SaveUrl(t1, url, alias, NoFault).docs, alias, NoFault) == Ok(url)
  {
  }

  /** Deleting one alias leaves every other alias answering exactly as before. */
  lemma DeleteKeepsOthers(table: seq<Doc>, alias: string, other: string, fault: Fault)
    requires other != alias
    ensures GetUrl(DeleteUrl(table, alias, fault).docs, other, NoFault) == GetUrl(table, other, NoFault)
  {
    RemoveAllOthers(table, alias, other);
  }

  /** With the unique key, a stored row is exactly what a fault-free `GetUrl` returns. */
  lemma GetStored(table: seq<Doc>, alias: string, url: string)
    requires UniqueAliases(table)
    ensures GetUrl(table, alias, NoFault) == Ok(url) <==> Doc(alias, url) in table
  {
    if Doc(alias, url) in table {
      UniqueLookup(table, alias, url);
    }
  }
}
